=== FILE: README.md ===
# Quiz24: quiz authoring and join-code entry, in Dafny

Quiz24 is a live multiplayer quiz web application. This project models two of its pages as pure functions over Dafny sequences and strings, and proves what they promise.

- **The quiz-authoring form** (`src/app/quiz/new/page.tsx`) keeps a list of questions. Each question has a text, a list of answers and the index of the correct answer. Four handlers edit the list: add, remove, set a field, set an answer. On submit the form checks the title and every question. Only then does it turn the list into rows whose `order_index` is the position in the list.
- **The join page** (`src/app/join/page.tsx`) stores the typed code upper-cased. It disables its button for codes shorter than four characters after trimming. On submit it navigates to `/play/` followed by the upper-cased code.

React state setters become functions that return the new list. `alert` becomes a `Reject(reason)` outcome, with `Message` giving the alert text. Assigning `window.location.href` becomes a `Navigate(path)` outcome.

Modules:

- `Text` (text.dfy): the JavaScript string operations the pages use.
  - `trim`, with ECMAScript's whitespace and line-terminator set.
  - `toUpperCase`.
  - The decimal rendering of a question number.
- `QuizEditor` (quiz_editor.dfy): `QuestionInput`, the opening list and the four edits. An `Edit` datatype lists the controls the form offers; `Run` applies a sequence of them.
- `QuizSubmit` (quiz_submit.dfy): the submit-time validation, the alert texts and the row mapping. A `Row` has the shape of the `Question` record in `src/lib/supabase.ts:16-23`, minus the id the store assigns.
- `JoinPage` (join_page.dfy): the code field, the button's disabled condition and the submit handler.

Two facts about the code shape the model:

- The authoring form has one kind of question with exactly four answer fields (src/app/quiz/new/page.tsx:15, 36).
- The join page checks only the trimmed length of the code (src/app/join/page.tsx:10, 39), so interior spaces and punctuation pass. Under the a-z case map of `Text.ToUpper`, the codes it navigates for have four to six characters after trimming.

## Model

| member | source | states |
|---|---|---|
| `QuizEditor.AddQuestion` | src/app/quiz/new/page.tsx:33-38 | the list grows by exactly one question, the existing prefix is unchanged, and the new question has empty text, four empty answers and correct index 0 |
| `QuizEditor.RemoveQuestion` | src/app/quiz/new/page.tsx:40-43 | a list of at most one question is returned unchanged. Otherwise an in-range index drops exactly that question: length n-1, questions before it at the same positions, questions after it shifted down by one. An out-of-range index drops nothing. A non-empty list never becomes empty |
| `QuizEditor.WithoutPositionSlices` | src/app/quiz/new/page.tsx:42 | filtering by `i !== index` equals `s[..index] + s[index+1..]` for an in-range index and equals `s` otherwise |
| `QuizEditor.UpdateQuestion` | src/app/quiz/new/page.tsx:45-53 | `question_text` sets only that question's text and `correct_index` sets only that question's correct index. No other question changes, and any other field name leaves the list unchanged |
| `QuizEditor.UpdateAnswer` | src/app/quiz/new/page.tsx:55-59 | only `answers[aIndex]` of question `qIndex` changes. Every other question, every other answer, the text, the correct index and the answer count are unchanged |
| `QuizEditor.RemoveUndoesAdd` | src/app/quiz/new/page.tsx:33-43 | removing the question just appended restores the list (inverse of add) |
| `QuizEditor.UpdateAnswerUndo` | src/app/quiz/new/page.tsx:55-59 | writing the old answer back restores the list (inverse of updateAnswer) |
| `QuizEditor.UpdateTextUndo` | src/app/quiz/new/page.tsx:47-48 | writing the old text back restores the list |
| `QuizEditor.UpdateCorrectUndo` | src/app/quiz/new/page.tsx:49-50 | writing the old correct index back restores the list |
| `QuizEditor.OfferedControls` | src/app/quiz/new/page.tsx:141-195 | on a well-formed list the form offers a text field for exactly the rendered questions, and an answer field and a check mark for exactly answer indices 0 to 3 of each |
| `QuizEditor.Apply` | src/app/quiz/new/page.tsx:151-205 | each control calls its handler. Add grows the list by one, remove shrinks it by at most one, the three field edits keep its length, and a non-empty list stays non-empty |
| `QuizEditor.InitialWellFormed` | src/app/quiz/new/page.tsx:14-16 | the opening list has one question with four answers and a correct index in range |
| `QuizEditor.ApplyKeepsWellFormed` | src/app/quiz/new/page.tsx:33-59 | each edit the form offers keeps the list non-empty, every question at four answers and every correct index naming one of them |
| `QuizEditor.RunKeepsWellFormed` | src/app/quiz/new/page.tsx:33-59 | any run of offered edits keeps a well-formed list well formed |
| `QuizEditor.ReachableWellFormed` | src/app/quiz/new/page.tsx:14-59 | every list reachable from the opening form is well formed, so in particular it is never empty |
| `QuizSubmit.EmptyAfterTrim` | src/app/quiz/new/page.tsx:75 | the filter returns at most as many answers as it is given, and every answer it keeps is blank. `EmptyAfterTrimFindsBlank` adds that it keeps one exactly when some answer is blank |
| `QuizSubmit.EmptyAfterTrimFindsBlank` | src/app/quiz/new/page.tsx:75-76 | the filtered answers are all blank, and there is at least one exactly when some answer is blank |
| `QuizSubmit.CheckQuestions` | src/app/quiz/new/page.tsx:70-80 | a failure names a question, never the title, and the number is a 1-based position after `i` within the list. Which question and why is stated by `CheckQuestionsFindsFirst` |
| `QuizSubmit.CheckQuestionsFindsFirst` | src/app/quiz/new/page.tsx:69-80 | the loop passes iff every question from `i` on has non-blank text and no blank answer. On failure it names the first failing question (1-based) and says why: blank text, or text present and some answer blank |
| `QuizSubmit.Submit` | src/app/quiz/new/page.tsx:61-101 | accepts iff the title is non-blank and every question is complete. A blank title is reported for exactly the blank titles. Any other rejection pinpoints the first failing question. Only an accepted form yields rows, and every row carries the quiz id |
| `QuizSubmit.ToRows` | src/app/quiz/new/page.tsx:95-101 | one row per question, in list order. Each row holds the question's untrimmed text, answers and correct index, and its list position as `order_index` |
| `QuizSubmit.RowsRoundTrip` | src/app/quiz/new/page.tsx:95-101 | stripping the rows back to questions gives the authored list exactly |
| `QuizSubmit.RowOrderIndices` | src/app/quiz/new/page.tsx:100 | order indices strictly increase and stay below the number of questions, so they are unique and consecutive from 0. A corollary of the pointwise ensures of `ToRows` |
| `QuizSubmit.Message` | src/app/quiz/new/page.tsx:64-79 | the title alert is "Bitte gib einen Titel ein". A question alert starts with "Frage " and ends with " hat keinen Text" or " hat leere Antworten". The digits between have no leading zero and read back as the question number, which fixes the text uniquely |
| `QuizSubmit.MessageIdentifiesRejection` | src/app/quiz/new/page.tsx:64-79 | different rejections give different alert texts: the alert tells which check failed and for which question number |
| `QuizSubmit.TitleCheckedFirst` | src/app/quiz/new/page.tsx:64-67 | with a blank title the form is rejected for the title, whatever the questions hold. A corollary of the title ensures of `Submit` |
| `QuizSubmit.TextCheckedBeforeAnswers` | src/app/quiz/new/page.tsx:70-79 | when the first incomplete question has blank text, the rejection reports its text and not its answers |
| `QuizSubmit.StoredTextUntrimmed` | src/app/quiz/new/page.tsx:64-101 | when the title and every question pass validation, the form is accepted and row `i` stores question `i`'s text and answers exactly as authored, surrounding whitespace included |
| `JoinPage.OnCodeChange` | src/app/join/page.tsx:28-33 | the stored code is the typed value with each character upper-cased in place. It is upper case, keeps the typed length (at most 6) and keeps the trimmed length |
| `JoinPage.SubmitDisabled` | src/app/join/page.tsx:39 | the button is disabled exactly when no two non-whitespace characters lie at least three positions apart, and always for codes shorter than four characters |
| `JoinPage.HandleSubmit` | src/app/join/page.tsx:8-13 | navigates iff some two non-whitespace characters are at least three positions apart, that is, the trimmed length is at least 4. The path is `/play/` followed by the upper-cased, untrimmed code |
| `JoinPage.TrimGateSpans` | src/app/join/page.tsx:10 | trimmed length ≥ 4 iff two non-whitespace characters lie at least three positions apart (both directions) |
| `JoinPage.DisabledIffNoNavigation` | src/app/join/page.tsx:8-39 | the button is disabled exactly when submitting would not navigate |
| `JoinPage.StoredCodeNavigatesVerbatim` | src/app/join/page.tsx:8-33 | for a code stored by the field, the path is `/play/` followed by the stored code itself |
| `JoinPage.OnCodeChangeKeepsGate` | src/app/join/page.tsx:31-39 | upper-casing the typed value never changes whether the button is enabled |
| `JoinPage.AcceptedCodeLength` | src/app/join/page.tsx:10-33 | a code of at most 6 characters that navigates has 4 to 6 characters after trimming. A corollary of the guard in `HandleSubmit` and the length bound of `Text.Trim` |
| `JoinPage.PathKeepsWhitespace` | src/app/join/page.tsx:11 | every whitespace character of the code, leading and trailing ones included, reappears in place in the path |
| `Text.Trim` | src/app/join/page.tsx:10 | the trimmed string is empty iff the input is all whitespace. A non-empty result starts and ends with non-whitespace |
| `Text.TrimSlice` | src/app/quiz/new/page.tsx:64 | the trimmed string is the slice between the first and the last non-whitespace character, with only whitespace outside it |
| `Text.ToUpper` | src/app/join/page.tsx:31 | same length, each character upper-cased in place |
| `Text.ToUpperIdempotent` | src/app/join/page.tsx:31 | upper-casing twice equals upper-casing once |
| `Text.ToUpperFixesExactlyUpperCase` | src/app/join/page.tsx:31 | upper-casing leaves a string unchanged iff it is already upper case |
| `Text.ToUpperKeepsTrimLength` | src/app/join/page.tsx:10-31 | upper-casing does not change the trimmed length |
| `Text.Decimal` | src/app/quiz/new/page.tsx:72 | a question number renders as at least one digit with no leading zero |
| `Text.DecimalRoundTrip` | src/app/quiz/new/page.tsx:77 | reading the rendered digits back gives the number |

## Left out

- Storage calls are not modelled: the quiz insert, the question insert, the "Fehler beim Speichern" alert and the `saving` flag (src/app/quiz/new/page.tsx:82-114). They are network I/O to a third-party backend. The id of the created quiz is a parameter of `Submit`, and rows leave out their store-assigned id.
- The sign-in check and redirect (src/app/quiz/new/page.tsx:20-31) are left out. They are an authentication call.
- Navigation is an outcome value. The browser's URL resolution and percent-encoding of the path are not modelled.
- `Text.ToUpper`: upper-cases only the Latin letters a-z. JavaScript's full Unicode case mapping is not modelled; it can change other letters and even the length (ß becomes SS).
- `JoinPage.OnCodeChange`: the stored code keeps the typed length and trimmed length only under the a-z case map. A full Unicode map can lengthen it, so a typed "SSß" is stored as "SSSS" by the page.
- `JoinPage.OnCodeChangeKeepsGate`: holds only under the a-z case map. Under the full map a typed "SSß" has trimmed length 3 but is stored as "SSSS", which enables the button.
- `JoinPage.AcceptedCodeLength`: its bound of at most 6 characters holds for stored codes only under the a-z case map. Under the full map a typed 6-character value can be stored longer (ß becomes SS).
- `Text.ToUpperKeepsTrimLength`: holds only for the a-z case map, which never changes the length or the whitespace positions.
- `JoinPage.HandleSubmit`, `JoinPage.SubmitDisabled`: lengths count Unicode scalar values, while JavaScript counts UTF-16 code units. The two differ only for characters outside the Basic Multilingual Plane.
- `QuizEditor.UpdateQuestion`: the value must have the type its field name casts it to (`as string`, `as number`), as every caller passes it. A mismatched value and an out-of-range index (which throws in the source) are excluded by the precondition.
- `QuizEditor.UpdateAnswer`: the indices must name an existing question and answer, as every caller passes them. An out-of-range answer index would grow the JavaScript array, and an out-of-range question index throws. Both are excluded by the precondition.
- The shallow spread copy in `updateQuestion` and `updateAnswer` mutates the previous state's question objects. The model gives the intended functional update instead.
- `QuizEditor.Offered` lets the remove control fire on any list. The form shows it only when there are at least two questions (src/app/quiz/new/page.tsx:148), so the proved invariant covers more runs than the form allows.
- Join-code generation in the dashboard is left out. It is random and formats a floating-point number in base 36.
- Live sessions are left out: lobby and game states, scoring, answers and polling. The host and play pages, the dashboard, the account and header components and the markup-only pages are not part of this model.

=== FILE: join_page.dfy ===
/**
 The join page: a code field that stores what is typed upper-cased, a submit
 button disabled for short codes, and a submit handler that navigates to the
 play page of the code.
 */
module JoinPage {
  import opened Text

  /** Fewest characters, after trimming, a code needs to be submitted. */
  const MinCodeLength: nat := 4

  /** The code field's maxLength: the browser accepts no longer input. */
  const MaxCodeLength: nat := 6

  /** The path the play page of a code lives under. */
  const PlayPrefix: string := "/play/"

  /** What submitting the form does: nothing, or a navigation to a path. */
  datatype Navigation = NoOp | Navigate(path: string)

  /** The code field's onChange: the typed value, upper-cased, becomes the stored code. */
  function OnCodeChange(typed: string): (code: string)
    requires |typed| <= MaxCodeLength
    ensures |code| == |typed|
    ensures forall i :: 0 <= i < |typed| ==> code[i] == UpperChar(typed[i])
    ensures IsUpperCase(code)
    ensures |Trim(code)| == |Trim(typed)|
  {
    ToUpperIsUpperCase(typed);
    ToUpperKeepsTrimLength(typed);
    ToUpper(typed)
  }

  /** The submit button's disabled attribute: set exactly when no two
      non-whitespace characters lie far enough apart, so in particular for every
      code shorter than MinCodeLength. */
  predicate SubmitDisabled(code: string)
    ensures SubmitDisabled(code) <==> !SpansMinLength(code)
    ensures |code| < MinCodeLength ==> SubmitDisabled(code)
  {
    TrimGateSpans(code);
    |Trim(code)| < MinCodeLength
  }

  /** True when code has two non-whitespace characters at least
      MinCodeLength - 1 positions apart: the first and the last of at least
      MinCodeLength characters that trimming keeps. */
  predicate SpansMinLength(code: string)
  {
    exists i, j :: 0 <= i && i + MinCodeLength - 1 <= j < |code| && !IsWhitespace(code[i]) && !IsWhitespace(code[j])
  }

  /** handleSubmit: navigate to the play page of the upper-cased code when the
      trimmed code has at least MinCodeLength characters, otherwise do nothing.
      The path carries the whole code, untrimmed. */
  function HandleSubmit(code: string): (n: Navigation)
    ensures n.Navigate? <==> SpansMinLength(code)
    ensures n.Navigate? ==>
              && |n.path| == |PlayPrefix| + |code|
              && n.path[..|PlayPrefix|] == PlayPrefix
              && n.path[|PlayPrefix|..] == ToUpper(code)
  {
    TrimGateSpans(code);
    if |Trim(code)| >= MinCodeLength then Navigate(PlayPrefix + ToUpper(code)) else NoOp
  }

  /** The trimmed length reaches MinCodeLength exactly when two non-whitespace
      characters lie far enough apart. */
  lemma TrimGateSpans(code: string)
    ensures |Trim(code)| >= MinCodeLength <==> SpansMinLength(code)
  {
    TrimSlice(code);
    var k := |code| - |TrimStart(code)|;
    var r := Trim(code);
    if |r| >= MinCodeLength {
      assert code[k] == r[0] && code[k + |r| - 1] == r[|r| - 1];
    }
    if SpansMinLength(code) {
      var i, j :| 0 <= i && i + MinCodeLength - 1 <= j < |code| && !IsWhitespace(code[i]) && !IsWhitespace(code[j]);
      assert k <= i;
      assert j < k + |r|;
    }
  }

  /** The button is disabled exactly when submitting would not navigate. */
  lemma DisabledIffNoNavigation(code: string)
    ensures SubmitDisabled(code) <==> HandleSubmit(code) == NoOp
  {
  }

  /** A stored code, already upper case, appears verbatim in the play path. */
  lemma StoredCodeNavigatesVerbatim(typed: string)
    requires |typed| <= MaxCodeLength
    ensures var code := OnCodeChange(typed);
            HandleSubmit(code).Navigate? ==> HandleSubmit(code).path == PlayPrefix + code
  {
  }

  /** Upper-casing the input never changes whether the form can be submitted. */
  lemma OnCodeChangeKeepsGate(typed: string)
    requires |typed| <= MaxCodeLength
    ensures SubmitDisabled(OnCodeChange(typed)) <==> SubmitDisabled(typed)
  {
  }

  /** An accepted stored code has between MinCodeLength and MaxCodeLength
      characters left after trimming. */
  lemma AcceptedCodeLength(code: string)
    requires |code| <= MaxCodeLength
    requires HandleSubmit(code).Navigate?
    ensures MinCodeLength <= |Trim(code)| <= MaxCodeLength
  {
  }

  /** The path is built from the untrimmed code: every whitespace character of
      the code, leading and trailing ones included, reappears at its place. */
  lemma PathKeepsWhitespace(code: string)
    requires HandleSubmit(code).Navigate?
    ensures forall i :: 0 <= i < |code| && IsWhitespace(code[i]) ==>
              HandleSubmit(code).path[|PlayPrefix| + i] == code[i]
  {
  }
}

=== FILE: quiz_editor.dfy ===
/**
 The question list of the quiz-authoring form and the four edits the form
 makes to it. React's state setters become functions that return the new list.
 */
module QuizEditor {

  /** One question being authored: its text, its answer options and the
      position of the correct option. */
  datatype QuestionInput = QuestionInput(questionText: string, answers: seq<string>, correctIndex: int)

  /** Number of answer fields every question is created with. */
  const AnswerSlots: nat := 4

  /** A fresh question: empty text, four empty answers, the first one marked correct. */
  const BlankQuestion: QuestionInput := QuestionInput("", ["", "", "", ""], 0)

  /** The list the form opens with: a single fresh question. */
  const InitialQuestions: seq<QuestionInput> := [BlankQuestion]

  /** addQuestion: one fresh question appended, the existing ones untouched. */
  function AddQuestion(qs: seq<QuestionInput>): (r: seq<QuestionInput>)
    ensures |r| == |qs| + 1
    ensures r[..|qs|] == qs
    ensures r[|qs|] == BlankQuestion
  {
    qs + [BlankQuestion]
  }

  /** Array.prototype.filter keeping every element whose position is not index. */
  function WithoutPosition<T>(s: seq<T>, index: int): seq<T>
    decreases |s|
  {
    if |s| == 0 then []
    else if |s| - 1 == index then WithoutPosition(s[..|s| - 1], index)
    else WithoutPosition(s[..|s| - 1], index) + [s[|s| - 1]]
  }

  /** The filter drops exactly the element at an in-range index and nothing otherwise. */
  lemma {:induction false} WithoutPositionSlices<T>(s: seq<T>, index: int)
    ensures 0 <= index < |s| ==> WithoutPosition(s, index) == s[..index] + s[index + 1..]
    ensures !(0 <= index < |s|) ==> WithoutPosition(s, index) == s
    decreases |s|
  {
    if |s| > 0 {
      var init, last := s[..|s| - 1], s[|s| - 1];
      WithoutPositionSlices(init, index);
      if |s| - 1 == index {
        assert init == s[..index] + s[index + 1..];
      } else if 0 <= index < |s| - 1 {
        assert init[..index] == s[..index];
        assert init[index + 1..] + [last] == s[index + 1..];
      } else {
        assert init + [last] == s;
      }
    }
  }

  /** removeQuestion: refuses to empty the list; otherwise drops the question at
      index, keeping the others in order; an index naming no question drops nothing. */
  function RemoveQuestion(qs: seq<QuestionInput>, index: int): (r: seq<QuestionInput>)
    ensures |qs| <= 1 ==> r == qs
    ensures !(0 <= index < |qs|) ==> r == qs
    ensures |qs| > 1 && 0 <= index < |qs| ==>
              && |r| == |qs| - 1
              && (forall j :: 0 <= j < index ==> r[j] == qs[j])
              && (forall j :: index < j < |qs| ==> r[j - 1] == qs[j])
    ensures |qs| >= 1 ==> |r| >= 1
  {
    if |qs| <= 1 then qs
    else
      WithoutPositionSlices(qs, index);
      WithoutPosition(qs, index)
  }

  /** The value argument of updateQuestion: a string or a number. */
  datatype FieldValue = Str(text: string) | Num(number: int)

  /** The field names updateQuestion recognises. */
  const TextField: string := "question_text"
  const CorrectField: string := "correct_index"

  /** updateQuestion: sets the text or the correct index of one question and
      leaves everything else as it was; any other field name changes nothing.
      The value must have the type the field name casts it to, and a field the
      function writes must name an existing question. */
  function UpdateQuestion(qs: seq<QuestionInput>, index: int, field: string, value: FieldValue): (r: seq<QuestionInput>)
    requires field == TextField ==> 0 <= index < |qs| && value.Str?
    requires field == CorrectField ==> 0 <= index < |qs| && value.Num?
    ensures |r| == |qs|
    ensures forall j :: 0 <= j < |qs| && j != index ==> r[j] == qs[j]
    ensures field == TextField ==>
              && r[index].questionText == value.text
              && r[index].answers == qs[index].answers
              && r[index].correctIndex == qs[index].correctIndex
    ensures field == CorrectField ==>
              && r[index].correctIndex == value.number
              && r[index].questionText == qs[index].questionText
              && r[index].answers == qs[index].answers
    ensures field != TextField && field != CorrectField ==> r == qs
  {
    if field == TextField then qs[index := qs[index].(questionText := value.text)]
    else if field == CorrectField then qs[index := qs[index].(correctIndex := value.number)]
    else qs
  }

  /** updateAnswer: sets one answer of one question; every other question, every
      other answer, the text and the correct index are unchanged. */
  function UpdateAnswer(qs: seq<QuestionInput>, qIndex: int, aIndex: int, value: string): (r: seq<QuestionInput>)
    requires 0 <= qIndex < |qs|
    requires 0 <= aIndex < |qs[qIndex].answers|
    ensures |r| == |qs|
    ensures forall j :: 0 <= j < |qs| && j != qIndex ==> r[j] == qs[j]
    ensures r[qIndex].questionText == qs[qIndex].questionText
    ensures r[qIndex].correctIndex == qs[qIndex].correctIndex
    ensures |r[qIndex].answers| == |qs[qIndex].answers|
    ensures r[qIndex].answers[aIndex] == value
    ensures forall k :: 0 <= k < |qs[qIndex].answers| && k != aIndex ==>
              r[qIndex].answers[k] == qs[qIndex].answers[k]
  {
    var q := qs[qIndex];
    qs[qIndex := q.(answers := q.answers[aIndex := value])]
  }

  /** Removing the question just added gives back the list it was added to. */
  lemma RemoveUndoesAdd(qs: seq<QuestionInput>)
    requires |qs| >= 1
    ensures RemoveQuestion(AddQuestion(qs), |qs|) == qs
  {
  }

  /** Writing an answer's old value back undoes updateAnswer. */
  lemma UpdateAnswerUndo(qs: seq<QuestionInput>, qIndex: int, aIndex: int, value: string)
    requires 0 <= qIndex < |qs|
    requires 0 <= aIndex < |qs[qIndex].answers|
    ensures UpdateAnswer(UpdateAnswer(qs, qIndex, aIndex, value), qIndex, aIndex, qs[qIndex].answers[aIndex]) == qs
  {
    var r := UpdateAnswer(UpdateAnswer(qs, qIndex, aIndex, value), qIndex, aIndex, qs[qIndex].answers[aIndex]);
    assert r[qIndex].answers == qs[qIndex].answers;
    assert forall j :: 0 <= j < |qs| ==> r[j] == qs[j];
  }

  /** Writing a question's old text back undoes updateQuestion on the text. */
  lemma UpdateTextUndo(qs: seq<QuestionInput>, index: int, text: string)
    requires 0 <= index < |qs|
    ensures UpdateQuestion(UpdateQuestion(qs, index, TextField, Str(text)), index, TextField, Str(qs[index].questionText)) == qs
  {
  }

  /** Writing a question's old correct index back undoes updateQuestion on the index. */
  lemma UpdateCorrectUndo(qs: seq<QuestionInput>, index: int, answer: int)
    requires 0 <= index < |qs|
    ensures UpdateQuestion(UpdateQuestion(qs, index, CorrectField, Num(answer)), index, CorrectField, Num(qs[index].correctIndex)) == qs
  {
  }

  /** The edits the rendered form can raise, each bound to the handler it calls:
      the add button, a question's remove button, its text field, the check mark
      next to an answer, and an answer field. */
  datatype Edit =
    | Add
    | Remove(index: int)
    | SetText(index: int, text: string)
    | MarkCorrect(index: int, answer: int)
    | SetAnswer(index: int, answer: int, text: string)

  /** Whether the form shows the control raising e: per-question controls exist
      only for rendered questions and per-answer controls only for rendered
      answers. Remove is admitted for every index, since removeQuestion guards itself. */
  predicate Offered(qs: seq<QuestionInput>, e: Edit)
  {
    match e
    case Add => true
    case Remove(_) => true
    case SetText(i, _) => 0 <= i < |qs|
    case MarkCorrect(i, a) => 0 <= i < |qs| && 0 <= a < |qs[i].answers|
    case SetAnswer(i, a, _) => 0 <= i < |qs| && 0 <= a < |qs[i].answers|
  }

  /** On a well-formed list the form renders, for every question, a text field
      and for each of its four answers an answer field and a check mark. */
  lemma OfferedControls(qs: seq<QuestionInput>, i: int, a: int, t: string)
    requires WellFormed(qs)
    ensures Offered(qs, SetText(i, t)) <==> 0 <= i < |qs|
    ensures Offered(qs, MarkCorrect(i, a)) <==> 0 <= i < |qs| && 0 <= a < AnswerSlots
    ensures Offered(qs, SetAnswer(i, a, t)) <==> 0 <= i < |qs| && 0 <= a < AnswerSlots
  {
  }

  /** The list after the handler of e has run. */
  function Apply(qs: seq<QuestionInput>, e: Edit): (r: seq<QuestionInput>)
    requires Offered(qs, e)
    ensures e.Add? ==> |r| == |qs| + 1
    ensures e.Remove? ==> |r| == |qs| || |r| == |qs| - 1
    ensures !e.Add? && !e.Remove? ==> |r| == |qs|
    ensures |qs| >= 1 ==> |r| >= 1
  {
    match e
    case Add => AddQuestion(qs)
    case Remove(i) => RemoveQuestion(qs, i)
    case SetText(i, t) => UpdateQuestion(qs, i, TextField, Str(t))
    case MarkCorrect(i, a) => UpdateQuestion(qs, i, CorrectField, Num(a))
    case SetAnswer(i, a, t) => UpdateAnswer(qs, i, a, t)
  }

  /** The shape the form keeps: at least one question, every question with four
      answers and a correct index naming one of them. */
  predicate WellFormed(qs: seq<QuestionInput>)
  {
    && |qs| >= 1
    && forall j :: 0 <= j < |qs| ==>
         |qs[j].answers| == AnswerSlots && 0 <= qs[j].correctIndex < AnswerSlots
  }

  /** The form opens well formed. */
  lemma InitialWellFormed()
    ensures WellFormed(InitialQuestions)
  {
  }

  /** Every edit the form offers keeps the list well formed. */
  lemma ApplyKeepsWellFormed(qs: seq<QuestionInput>, e: Edit)
    requires WellFormed(qs) && Offered(qs, e)
    ensures WellFormed(Apply(qs, e))
  {
    var r := Apply(qs, e);
    match e
    case Remove(i) =>
      if |qs| > 1 && 0 <= i < |qs| {
        forall j | 0 <= j < |r|
          ensures |r[j].answers| == AnswerSlots && 0 <= r[j].correctIndex < AnswerSlots
        {
          if j < i { assert r[j] == qs[j]; } else { assert r[j] == qs[j + 1]; }
        }
      }
    case _ =>
  }

  /** A sequence of edits each offered by the form as it stands when raised. */
  predicate ValidRun(qs: seq<QuestionInput>, edits: seq<Edit>)
    decreases |edits|
  {
    |edits| == 0 || (Offered(qs, edits[0]) && ValidRun(Apply(qs, edits[0]), edits[1..]))
  }

  /** The list after a run of edits. */
  function Run(qs: seq<QuestionInput>, edits: seq<Edit>): seq<QuestionInput>
    requires ValidRun(qs, edits)
    decreases |edits|
  {
    if |edits| == 0 then qs else Run(Apply(qs, edits[0]), edits[1..])
  }

  /** However the author edits the form, the list stays well formed; in
      particular it never becomes empty. */
  lemma {:induction false} RunKeepsWellFormed(qs: seq<QuestionInput>, edits: seq<Edit>)
    requires WellFormed(qs) && ValidRun(qs, edits)
    ensures WellFormed(Run(qs, edits))
    decreases |edits|
  {
    if |edits| > 0 {
      ApplyKeepsWellFormed(qs, edits[0]);
      RunKeepsWellFormed(Apply(qs, edits[0]), edits[1..]);
    }
  }

  /** Every list the author can reach from the opening form is well formed. */
  lemma ReachableWellFormed(edits: seq<Edit>)
    requires ValidRun(InitialQuestions, edits)
    ensures WellFormed(Run(InitialQuestions, edits))
  {
    InitialWellFormed();
    RunKeepsWellFormed(InitialQuestions, edits);
  }
}

=== FILE: quiz_submit.dfy ===
/**
 The checks the quiz-authoring form runs on submit before anything is stored,
 the alert each rejection shows, and the question rows an accepted form is
 turned into.
 */
module QuizSubmit {
  import opened Text
  import opened QuizEditor

  /** Why a submission is refused. The number of a question is its 1-based
      position in the list, as shown to the author. */
  datatype Rejection =
    | MissingTitle
    | NoText(number: nat)
    | EmptyAnswers(number: nat)

  /** A question row as stored: the quiz it belongs to, the authored content and
      its play position. */
  datatype Row = Row(quizId: string, questionText: string, answers: seq<string>, correctIndex: int, orderIndex: nat)

  /** The result of submitting the form: the alert's reason, or the rows to insert. */
  datatype Outcome = Reject(reason: Rejection) | Accept(rows: seq<Row>)

  /** Outcome of checking the questions alone. */
  datatype Check = Pass | Fail(reason: Rejection)

  /** A question the form accepts: text and every answer non-blank. */
  predicate Complete(q: QuestionInput)
  {
    && !Blank(q.questionText)
    && forall k :: 0 <= k < |q.answers| ==> !Blank(q.answers[k])
  }

  /** True when some string of ss is blank. */
  predicate AnyBlank(ss: seq<string>)
  {
    exists k :: 0 <= k < |ss| && Blank(ss[k])
  }

  /** `answers.filter(a => !a.trim())`: the answers nothing is left of after trimming. */
  function EmptyAfterTrim(answers: seq<string>): (r: seq<string>)
    ensures |r| <= |answers|
    ensures forall k :: 0 <= k < |r| ==> Blank(r[k])
    decreases |answers|
  {
    if |answers| == 0 then []
    else (if Trim(answers[0]) == [] then [answers[0]] else []) + EmptyAfterTrim(answers[1..])
  }

  /** The filter keeps only blank answers, and keeps at least one exactly when
      some answer is blank. */
  lemma {:induction false} EmptyAfterTrimFindsBlank(answers: seq<string>)
    ensures forall k :: 0 <= k < |EmptyAfterTrim(answers)| ==> Blank(EmptyAfterTrim(answers)[k])
    ensures |EmptyAfterTrim(answers)| > 0 <==> AnyBlank(answers)
    decreases |answers|
  {
    if |answers| > 0 {
      var tail := answers[1..];
      EmptyAfterTrimFindsBlank(tail);
      if AnyBlank(tail) {
        var k :| 0 <= k < |tail| && Blank(tail[k]);
        assert answers[k + 1] == tail[k];
      }
      if AnyBlank(answers) && !Blank(answers[0]) {
        var k :| 0 <= k < |answers| && Blank(answers[k]);
        assert tail[k - 1] == answers[k];
      }
    }
  }

  /** Rejection r names question number - 1 as the first of qs[i..] the form
      refuses, and says why: blank text, or text present and some answer blank. */
  predicate Pinpoints(qs: seq<QuestionInput>, i: nat, r: Rejection)
  {
    match r
    case MissingTitle => false
    case NoText(n) =>
      && i < n <= |qs|
      && (forall j :: i <= j < n - 1 ==> Complete(qs[j]))
      && Blank(qs[n - 1].questionText)
    case EmptyAnswers(n) =>
      && i < n <= |qs|
      && (forall j :: i <= j < n - 1 ==> Complete(qs[j]))
      && !Blank(qs[n - 1].questionText)
      && AnyBlank(qs[n - 1].answers)
  }

  /** The validation loop over the questions, from question i on. */
  function CheckQuestions(qs: seq<QuestionInput>, i: nat): (c: Check)
    requires i <= |qs|
    ensures c.Fail? ==> !c.reason.MissingTitle? && i < c.reason.number <= |qs|
    decreases |qs| - i
  {
    if i == |qs| then Pass
    else if Trim(qs[i].questionText) == [] then Fail(NoText(i + 1))
    else if |EmptyAfterTrim(qs[i].answers)| > 0 then Fail(EmptyAnswers(i + 1))
    else CheckQuestions(qs, i + 1)
  }

  /** The loop passes exactly when every question from i on is complete, and
      otherwise stops at the first incomplete one, saying why. */
  lemma {:induction false} CheckQuestionsFindsFirst(qs: seq<QuestionInput>, i: nat)
    requires i <= |qs|
    ensures CheckQuestions(qs, i).Pass? <==> forall j :: i <= j < |qs| ==> Complete(qs[j])
    ensures CheckQuestions(qs, i).Fail? ==> Pinpoints(qs, i, CheckQuestions(qs, i).reason)
    decreases |qs| - i
  {
    if i < |qs| {
      var q := qs[i];
      EmptyAfterTrimFindsBlank(q.answers);
      if Trim(q.questionText) != [] && |EmptyAfterTrim(q.answers)| == 0 {
        assert Complete(q);
        CheckQuestionsFindsFirst(qs, i + 1);
      }
    }
  }

  /** `questions.map((q, index) => ...)`: one row per question, in list order,
      carrying the question's content and its position as order index. */
  function ToRows(quizId: string, qs: seq<QuestionInput>): (rows: seq<Row>)
    ensures |rows| == |qs|
    ensures forall i :: 0 <= i < |qs| ==>
              rows[i] == Row(quizId, qs[i].questionText, qs[i].answers, qs[i].correctIndex, i)
    decreases |qs|
  {
    if |qs| == 0 then []
    else
      var last := qs[|qs| - 1];
      ToRows(quizId, qs[..|qs| - 1]) + [Row(quizId, last.questionText, last.answers, last.correctIndex, |qs| - 1)]
  }

  /** handleSubmit up to the inserts: the title is checked first, then the
      questions in order; only a fully accepted form yields rows, and every row
      belongs to the quiz created for it. */
  function Submit(title: string, qs: seq<QuestionInput>, quizId: string): (o: Outcome)
    ensures o.Accept? <==> !Blank(title) && forall j :: 0 <= j < |qs| ==> Complete(qs[j])
    ensures o == Reject(MissingTitle) <==> Blank(title)
    ensures o.Reject? && o.reason != MissingTitle ==> Pinpoints(qs, 0, o.reason)
    ensures o.Accept? ==> o.rows == ToRows(quizId, qs)
    ensures o.Accept? ==> forall i :: 0 <= i < |o.rows| ==> o.rows[i].quizId == quizId
  {
    CheckQuestionsFindsFirst(qs, 0);
    if Trim(title) == [] then Reject(MissingTitle)
    else
      match CheckQuestions(qs, 0)
      case Fail(r) => Reject(r)
      case Pass => Accept(ToRows(quizId, qs))
  }

  /** The authored question a stored row carries. */
  function QuestionOf(row: Row): QuestionInput
  {
    QuestionInput(row.questionText, row.answers, row.correctIndex)
  }

  /** Stripping the rows back to questions gives the authored list unchanged:
      nothing is trimmed, dropped or reordered. */
  lemma RowsRoundTrip(quizId: string, qs: seq<QuestionInput>)
    ensures var rows := ToRows(quizId, qs);
            seq(|rows|, i requires 0 <= i < |rows| => QuestionOf(rows[i])) == qs
  {
  }

  /** The order indices strictly increase along the rows and stay below the
      number of questions, so they are 0 .. |qs| - 1, each used once, and
      ordering rows by order index reproduces the authored order. */
  lemma RowOrderIndices(quizId: string, qs: seq<QuestionInput>)
    ensures var rows := ToRows(quizId, qs);
            && (forall i, j :: 0 <= i < j < |rows| ==> rows[i].orderIndex < rows[j].orderIndex)
            && (forall i :: 0 <= i < |rows| ==> rows[i].orderIndex < |qs|)
  {
  }

  /** The alert text for a rejection. */
  function Message(r: Rejection): (m: string)
    ensures r.MissingTitle? ==> m == "Bitte gib einen Titel ein"
    ensures r.NoText? ==>
              && |m| > 22 && m[..6] == "Frage " && m[|m| - 16..] == " hat keinen Text"
              && IsDigits(m[6..|m| - 16]) && DigitsValue(m[6..|m| - 16]) == r.number
              && (|m| > 23 ==> m[6] != '0')
    ensures r.EmptyAnswers? ==>
              && |m| > 26 && m[..6] == "Frage " && m[|m| - 20..] == " hat leere Antworten"
              && IsDigits(m[6..|m| - 20]) && DigitsValue(m[6..|m| - 20]) == r.number
              && (|m| > 27 ==> m[6] != '0')
  {
    match r
    case MissingTitle => "Bitte gib einen Titel ein"
    case NoText(n) =>
      var m := "Frage " + Decimal(n) + " hat keinen Text";
      assert m[6..|m| - 16] == Decimal(n);
      assert m[6] == Decimal(n)[0];
      DecimalRoundTrip(n);
      m
    case EmptyAnswers(n) =>
      var m := "Frage " + Decimal(n) + " hat leere Antworten";
      assert m[6..|m| - 20] == Decimal(n);
      assert m[6] == Decimal(n)[0];
      DecimalRoundTrip(n);
      m
  }

  /** Different rejections show different alerts: the text tells the author
      which check failed and for which question. */
  lemma MessageIdentifiesRejection(r1: Rejection, r2: Rejection)
    requires Message(r1) == Message(r2)
    ensures r1 == r2
  {
    var m := Message(r1);
    match r1
    case MissingTitle =>
      assert m[0] == 'B';
    case NoText(n) =>
      assert m[0] == 'F' && m[|m| - 1] == 't';
      assert m[6..|m| - 16] == Decimal(n);
      if r2.NoText? {
        assert m[6..|m| - 16] == Decimal(r2.number);
        DecimalInjective(n, r2.number);
      }
    case EmptyAnswers(n) =>
      assert m[0] == 'F' && m[|m| - 1] == 'n';
      assert m[6..|m| - 20] == Decimal(n);
      if r2.EmptyAnswers? {
        assert m[6..|m| - 20] == Decimal(r2.number);
        DecimalInjective(n, r2.number);
      }
  }

  /** A rejection names the title before any question: with a blank title the
      form is refused for the title whatever the questions hold. */
  lemma TitleCheckedFirst(title: string, qs: seq<QuestionInput>, quizId: string)
    requires Blank(title)
    ensures Submit(title, qs, quizId) == Reject(MissingTitle)
  {
  }

  /** Within one question, blank text is reported rather than blank answers. */
  lemma TextCheckedBeforeAnswers(title: string, qs: seq<QuestionInput>, quizId: string, i: nat)
    requires !Blank(title)
    requires i < |qs| && Blank(qs[i].questionText)
    requires forall j :: 0 <= j < i ==> Complete(qs[j])
    ensures Submit(title, qs, quizId) == Reject(NoText(i + 1))
  {
  }

  /** The text a row stores is the authored text, surrounding spaces included:
      validation trims, the stored row does not. */
  lemma StoredTextUntrimmed(title: string, qs: seq<QuestionInput>, quizId: string, i: nat)
    requires !Blank(title) && forall j :: 0 <= j < |qs| ==> Complete(qs[j])
    requires i < |qs|
    ensures Submit(title, qs, quizId).Accept?
    ensures Submit(title, qs, quizId).rows[i].questionText == qs[i].questionText
    ensures Submit(title, qs, quizId).rows[i].answers == qs[i].answers
  {
  }
}

=== FILE: text.dfy ===
/**
 The string primitives the quiz pages rely on: JavaScript's String.prototype.trim,
 String.prototype.toUpperCase (on the Latin letters a-z) and the decimal rendering
 of a question number inside a template literal.
 */
module Text {

  /** A code point String.prototype.trim strips: ECMAScript's WhiteSpace (tab,
      vertical tab, form feed, the byte order mark and the Unicode space
      separators) and LineTerminator (line feed, carriage return, U+2028, U+2029). */
  predicate IsWhitespace(c: char)
  {
    || c == '\t' || c == '\n' || c == '\U{000B}' || c == '\U{000C}' || c == '\r'
    || c == ' ' || c == '\U{00A0}' || c == '\U{1680}'
    || ('\U{2000}' <= c <= '\U{200A}')
    || c == '\U{2028}' || c == '\U{2029}' || c == '\U{202F}' || c == '\U{205F}'
    || c == '\U{3000}' || c == '\U{FEFF}'
  }

  /** True when s holds nothing but whitespace (the empty string included). */
  predicate Blank(s: string)
  {
    forall i :: 0 <= i < |s| ==> IsWhitespace(s[i])
  }

  /** s without its longest whitespace prefix. */
  function TrimStart(s: string): string
    decreases |s|
  {
    if |s| > 0 && IsWhitespace(s[0]) then TrimStart(s[1..]) else s
  }

  /** TrimStart removes a prefix of whitespace and stops at the first
      non-whitespace character. */
  lemma {:induction false} TrimStartRemovesPrefix(s: string)
    ensures var r := TrimStart(s);
            && |r| <= |s| && r == s[|s| - |r|..]
            && (forall i :: 0 <= i < |s| - |r| ==> IsWhitespace(s[i]))
            && (r == [] || !IsWhitespace(r[0]))
    decreases |s|
  {
    if |s| > 0 && IsWhitespace(s[0]) {
      TrimStartRemovesPrefix(s[1..]);
      var r := TrimStart(s);
      assert s[1..][|s| - 1 - |r|..] == s[|s| - |r|..];
      forall i | 0 <= i < |s| - |r|
        ensures IsWhitespace(s[i])
      {
        if i > 0 { assert s[i] == s[1..][i - 1]; }
      }
    }
  }

  /** s without its longest whitespace suffix. */
  function TrimEnd(s: string): string
    decreases |s|
  {
    if |s| > 0 && IsWhitespace(s[|s| - 1]) then TrimEnd(s[..|s| - 1]) else s
  }

  /** TrimEnd removes a suffix of whitespace and stops at the last
      non-whitespace character. */
  lemma {:induction false} TrimEndRemovesSuffix(s: string)
    ensures var r := TrimEnd(s);
            && |r| <= |s| && r == s[..|r|]
            && (forall i :: |r| <= i < |s| ==> IsWhitespace(s[i]))
            && (r == [] || !IsWhitespace(r[|r| - 1]))
    decreases |s|
  {
    if |s| > 0 && IsWhitespace(s[|s| - 1]) {
      var init := s[..|s| - 1];
      TrimEndRemovesSuffix(init);
      var r := TrimEnd(s);
      assert init[..|r|] == s[..|r|];
      forall i | |r| <= i < |s|
        ensures IsWhitespace(s[i])
      {
        if i < |s| - 1 { assert s[i] == init[i]; }
      }
    }
  }

  /** String.prototype.trim. The result is empty exactly when s is blank, and a
      non-empty result starts and ends with a non-whitespace character. */
  function Trim(s: string): (r: string)
    ensures |r| <= |s|
    ensures r == [] <==> Blank(s)
    ensures r == [] || (!IsWhitespace(r[0]) && !IsWhitespace(r[|r| - 1]))
  {
    TrimStartRemovesPrefix(s);
    TrimEndRemovesSuffix(TrimStart(s));
    TrimEnd(TrimStart(s))
  }

  /** Trim(s) is the slice of s between the first and the last non-whitespace
      character: everything before and after it is whitespace. */
  lemma TrimSlice(s: string)
    ensures var k := |s| - |TrimStart(s)|;
            && 0 <= k && k + |Trim(s)| <= |s|
            && Trim(s) == s[k..k + |Trim(s)|]
            && (forall i :: 0 <= i < k ==> IsWhitespace(s[i]))
            && (forall i :: k + |Trim(s)| <= i < |s| ==> IsWhitespace(s[i]))
  {
    var t := TrimStart(s);
    var k := |s| - |t|;
    var r := TrimEnd(t);
    TrimStartRemovesPrefix(s);
    TrimEndRemovesSuffix(t);
    assert t == s[k..];
    assert r == t[..|r|] == s[k..k + |r|];
    forall i | k + |r| <= i < |s|
      ensures IsWhitespace(s[i])
    {
      assert s[i] == t[i - k];
      assert |r| <= i - k < |t|;
    }
  }

  /** The length of TrimStart depends only on which positions hold whitespace. */
  lemma {:induction false} TrimStartSamePattern(s: string, t: string)
    requires |s| == |t|
    requires forall i :: 0 <= i < |s| ==> (IsWhitespace(s[i]) <==> IsWhitespace(t[i]))
    ensures |TrimStart(s)| == |TrimStart(t)|
    decreases |s|
  {
    if |s| > 0 && IsWhitespace(s[0]) {
      TrimStartSamePattern(s[1..], t[1..]);
    }
  }

  /** The length of TrimEnd depends only on which positions hold whitespace. */
  lemma {:induction false} TrimEndSamePattern(s: string, t: string)
    requires |s| == |t|
    requires forall i :: 0 <= i < |s| ==> (IsWhitespace(s[i]) <==> IsWhitespace(t[i]))
    ensures |TrimEnd(s)| == |TrimEnd(t)|
    decreases |s|
  {
    if |s| > 0 && IsWhitespace(s[|s| - 1]) {
      TrimEndSamePattern(s[..|s| - 1], t[..|t| - 1]);
    }
  }

  /** The length of Trim depends only on which positions hold whitespace. */
  lemma TrimSamePattern(s: string, t: string)
    requires |s| == |t|
    requires forall i :: 0 <= i < |s| ==> (IsWhitespace(s[i]) <==> IsWhitespace(t[i]))
    ensures |Trim(s)| == |Trim(t)|
  {
    TrimStartSamePattern(s, t);
    TrimStartRemovesPrefix(s);
    TrimStartRemovesPrefix(t);
    var k := |s| - |TrimStart(s)|;
    var s', t' := TrimStart(s), TrimStart(t);
    forall i | 0 <= i < |s'|
      ensures IsWhitespace(s'[i]) <==> IsWhitespace(t'[i])
    {
      assert s'[i] == s[k + i] && t'[i] == t[k + i];
    }
    TrimEndSamePattern(s', t');
  }

  /** toUpperCase on one character, for the Latin letters a-z. */
  function UpperChar(c: char): char
  {
    if 'a' <= c <= 'z' then (c as int - 32) as char else c
  }

  /** True when s holds no lower-case Latin letter. */
  predicate IsUpperCase(s: string)
  {
    forall i :: 0 <= i < |s| ==> !('a' <= s[i] <= 'z')
  }

  /** String.prototype.toUpperCase: each character upper-cased in place. */
  function ToUpper(s: string): (r: string)
    ensures |r| == |s|
    ensures forall i :: 0 <= i < |s| ==> r[i] == UpperChar(s[i])
    decreases |s|
  {
    if |s| == 0 then [] else [UpperChar(s[0])] + ToUpper(s[1..])
  }

  /** The result of ToUpper is upper case. */
  lemma ToUpperIsUpperCase(s: string)
    ensures IsUpperCase(ToUpper(s))
  {
  }

  /** ToUpper leaves a string unchanged exactly when it is already upper case. */
  lemma ToUpperFixesExactlyUpperCase(s: string)
    ensures ToUpper(s) == s <==> IsUpperCase(s)
  {
  }

  /** Upper-casing twice is upper-casing once. */
  lemma ToUpperIdempotent(s: string)
    ensures ToUpper(ToUpper(s)) == ToUpper(s)
  {
  }

  /** Upper-casing moves no whitespace, so the trimmed length is unchanged. */
  lemma ToUpperKeepsTrimLength(s: string)
    ensures |Trim(ToUpper(s))| == |Trim(s)|
  {
    TrimSamePattern(s, ToUpper(s));
  }

  /** The character of a decimal digit d. */
  function DigitChar(d: nat): (c: char)
    requires d < 10
    ensures '0' <= c <= '9' && c as int - '0' as int == d
  {
    (d + '0' as int) as char
  }

  /** True when s consists of decimal digits only. */
  predicate IsDigits(s: string)
  {
    forall i :: 0 <= i < |s| ==> '0' <= s[i] <= '9'
  }

  /** The decimal rendering JavaScript gives a non-negative integer: at least
      one digit and no leading zero. */
  function Decimal(n: nat): (r: string)
    ensures |r| >= 1 && IsDigits(r)
    ensures |r| > 1 ==> r[0] != '0'
    decreases n
  {
    if n < 10 then [DigitChar(n)] else Decimal(n / 10) + [DigitChar(n % 10)]
  }

  /** The number a string of decimal digits denotes. */
  function DigitsValue(s: string): nat
    requires IsDigits(s)
    decreases |s|
  {
    if |s| == 0 then 0
    else DigitsValue(s[..|s| - 1]) * 10 + (s[|s| - 1] as int - '0' as int)
  }

  /** Reading back a decimal rendering yields the number rendered. */
  lemma {:induction false} DecimalRoundTrip(n: nat)
    ensures DigitsValue(Decimal(n)) == n
    decreases n
  {
    var r := Decimal(n);
    if n < 10 {
      assert r[..|r| - 1] == [];
    } else {
      DecimalRoundTrip(n / 10);
      assert r[..|r| - 1] == Decimal(n / 10);
    }
  }

  /** Distinct numbers have distinct renderings. */
  lemma DecimalInjective(m: nat, n: nat)
    requires Decimal(m) == Decimal(n)
    ensures m == n
  {
    DecimalRoundTrip(m);
    DecimalRoundTrip(n);
  }
}
